=== FILE: README.md ===
# FoodPrint data editor: a Dafny model

FoodPrint's `script.py` is a small desktop editor for a list of restaurant
("shop") records that is kept as a JSON array on disk. Each record has a
name, address, dishes, cuisine, recommendation, latitude, longitude and
last-updated timestamp. Apart from the GUI, the script contains four
pieces of logic, and this project models each one as pure Dafny functions
with proved contracts:

- **Validation** (`validation.dfy`) is the add/edit dialog's `validate`. The
  candidate record is built first: the text entries are stripped, the
  coordinates go through `float()`, and `updated` is set to the current time.
  Five rules are then checked in a fixed order, and the first failure is
  reported. The dialog stays open until a submission is accepted or the user
  cancels (`RunDialog`).
- **Normalisation** (`normalization.dfy`) is `load_data`. It reads the file
  and maps each raw JSON object to a record with exactly the eight keys. A
  present key keeps its value. An absent key gets its fixed default, and
  `updated` gets the clock reading. The coordinates are coerced with
  `float()`. The loop appends to the live list, so a failure part-way leaves
  the records normalised so far and skips the save.
- **Search** (`search.dfy`) is `filter_data`. It is a case-insensitive
  substring test of the keyword against name, cuisine and dishes, keeping
  list order.
- **List commands** (`store.dfy`) are `add_item`, `edit_item` and
  `delete_item`. They append, replace or remove, and then save. A failed save
  is reported but not rolled back.
- **Detail pane** (`preview.dfy`) covers the string handling of
  `update_preview`. Dishes are split at commas, each piece is stripped, and
  the pieces are joined with line breaks. Name, cuisine and timestamp are cut
  to 20, 15 and 19 characters.
- **Selected row** (`selection.dfy`) models which record a selected tree row
  stands for. The tree shows the list as of its last refresh: the filtered
  list after a change of the search box, the whole list after a load or a
  successful save. Edit and delete use the row position as a list index,
  which picks the wrong record when the last refresh was a filter that hid
  an earlier record (see Findings).

`text.dfy` gives Python's `strip`, `lower`, `in`, `split`, `join` and
slicing on `seq<char>`. `json.dfy` is the JSON value type. `records.dfy`
holds the record and its saved JSON form.

Some things become parameters:

- Python's `float()` on a string is `parse: string -> Option<real>`. Every
  property holds for any such parser.
- The clock is `now` in the dialog. During a load it is `clock(i)`, because
  the script reads the clock once per item.
- The success of `save_data` is `saveOk`.

After a load, a record's text fields keep whatever JSON value the file
held. For example, a numeric name survives a load. This is why those fields
are `Json.Value` and not strings.

## Model

| member | source | states |
|---|---|---|
| Text.LeadingSpaces | script.py:317-321 | the length of the longest all-whitespace prefix (maximal: the next character is not whitespace) |
| Text.Strip | script.py:317-321 | the stripped text is no longer than the input, uses only its characters, and neither starts nor ends with whitespace |
| Text.StripCharacterization | script.py:317-321 | for any input of the form whitespace + core + whitespace, where the core neither starts nor ends with whitespace, stripping yields exactly the core |
| Text.StripIdempotent | script.py:317-321 | stripping twice equals stripping once |
| Text.StripEmptyIffAllSpace | script.py:326 | a stripped name is empty exactly when every character of the entry is whitespace |
| Text.ContainsLower | script.py:168-173 | if the keyword occurs literally in a field, it also occurs after both are lower-cased |
| Text.Split | script.py:148 | splitting at a character gives one more piece than there are separators, no piece contains the separator, and joining the pieces with it gives back the input |
| Text.SplitJoin | script.py:148 | splitting undoes joining, for one or more parts of which none contains the separator |
| Text.Truncate | script.py:150-151 | a slice `s[:n]` is a prefix of `s` of length min(n, \|s\|) |
| Validation.Validate | script.py:314-341 | an unparsable latitude or longitude gives InvalidNumber, whatever the other entries hold; an accepted record holds the stripped texts, the parsed coordinates within [-90, 90] and [-180, 180] inclusive, a non-empty name, a recommendation of at most 100 characters, and the supplied timestamp |
| Validation.ValidateReportsFirstFailure | script.py:314-341 | the dialog reports rule e exactly when e is broken and every rule checked before it (number, empty name, recommendation length, latitude, longitude) holds |
| Validation.ValidateAcceptsIffNoViolation | script.py:326-338 | the dialog accepts exactly when none of the five rules is broken |
| Validation.SingleViolationIsReported | script.py:326-341 | an input that breaks exactly one rule is rejected with that rule's error |
| Validation.ValidatedIsAcceptable | script.py:316-338 | every accepted record meets every rule, and its name is already stripped |
| Validation.RunDialog | script.py:314-344 | a dialog session yields no record exactly when every submission was rejected, and otherwise the record of the first accepted submission, with all earlier ones rejected |
| Validation.DialogResultIsAcceptable | script.py:326-344 | a record that closes the dialog meets every rule |
| Normalization.Coerce | script.py:210-211 | `float()` of a JSON number is that number, of `true`/`false` is 1.0/0.0, of a string is the string's parse; null, arrays and objects are rejected |
| Normalization.NormalizeItem | script.py:204-213 | a non-object element fails; an object fails exactly when a present coordinate cannot be coerced; otherwise each present key keeps its value (coordinates coerced), each absent key gets its fixed default, absent coordinates are 0.0 and an absent `updated` is the clock reading |
| Normalization.NormalizeSavedRecord | script.py:204-213 | normalising a record's saved JSON object gives the record back unchanged |
| Normalization.NormalizeIgnoresExtraKeys | script.py:204-213 | keys other than the eight record keys do not affect the result |
| Normalization.NormalizeAll | script.py:202-214 | a completed loop yields one record per element, same order, each the element's normalisation; an aborted loop holds exactly the normalised records before the first failing element, whose error it reports |
| Normalization.Load | script.py:192-220 | an unreadable file keeps the previous list; a missing file loads an empty list; an array gives exactly the normalisation loop's outcome and loads exactly when every element normalises; an empty object or string loads an empty list, a non-empty one aborts on its first element (not an object), and a number, boolean or null aborts as not iterable, all leaving an empty list |
| Normalization.AbortedPrefixIsFinal | script.py:203-220 | once an element fails, the elements after it do not matter |
| Normalization.LoadData | script.py:192-220 | the loop of `load_data` computes exactly `Load` |
| Normalization.LoadSaved | script.py:192-226 | loading the file written by a save gives back exactly the saved list, so load/normalise/save is idempotent |
| Search.FilterLowered | script.py:168-174 | with a lower-cased keyword, the loop raises exactly when some record's test raises; otherwise it gives an order-preserving subsequence of the list whose every member matches, as many as the list has matching records, and never more records than the list holds |
| Search.Filter | script.py:166-174 | the search lower-cases the keyword once; it raises, leaving the tree as it was, exactly when some record has a non-string name, or a name without the keyword and a non-string cuisine, or name and cuisine without it and non-string dishes; otherwise it gives an order-preserving subsequence of the list, every member meeting the case-insensitive criterion on name, cuisine or dishes, as many as the list has matching records |
| Search.EmptyKeywordKeepsAll | script.py:168-174 | an empty search keeps every record in order, when every name is a string |
| Search.LiteralNameMatchIsShown | script.py:168-174 | when no record's test raises, a record whose name contains the search text, in any case, is among the filtered rows |
| Search.MatchesMeetsCriterion | script.py:169-173 | the short-circuit `or` of the three field tests raises exactly in the three cases of `Raises` and otherwise answers the criterion |
| Records.Serialize | script.py:222-226 | the saved JSON is an array with one object per record, in order, each with exactly the eight record keys holding the record's values |
| Store.AddItem | script.py:243-248 | a cancelled dialog changes nothing; an accepted one appends its record after the unchanged list, whether or not the save succeeds |
| Store.EditItem | script.py:250-265 | without a selection a warning is shown and nothing changes; a cancelled dialog changes nothing; an accepted one replaces only the selected position, length unchanged, whether or not the save succeeds |
| Store.DeleteItem | script.py:267-277 | without a selection or confirmation nothing changes; otherwise exactly the selected record is removed, the rest keep their order, and the list is one shorter, whether or not the save succeeds |
| Store.RejectedDialogChangesNothing | script.py:243-265 | a dialog whose every submission was rejected leaves the list unchanged for add and for edit |
| Store.AddThenDeleteRestores | script.py:243-277 | deleting the record just added restores the list |
| Store.EditTwiceKeepsLast | script.py:250-265 | editing a position twice equals editing it once with the second record |
| Store.CommandsPreserveAcceptable | script.py:243-277 | add, edit and delete keep every record acceptable when a new record is acceptable |
| Store.ReloadAfterAdd | script.py:243-248 | after an add whose save succeeded, reloading the file gives the old list with the new record last |
| Preview.DishesDisplay | script.py:148 | the display is the comma-free pieces that joined with commas give the text back, one more than there are commas, each stripped, joined with line breaks; without a comma it is the stripped text; without line breaks of its own it is one stripped dish per line, in order |
| Preview.PaneOf | script.py:141-164 | the pane exists exactly when dishes, name, cuisine and updated are strings; its dishes are the dishes display (the stripped text without a comma, one stripped dish per line otherwise); it shows name, cuisine and timestamp cut to their first 20, 15 and 19 characters (whole when shorter), and address, recommendation and coordinates unchanged |
| Preview.FullTimestampIsShownWhole | script.py:164 | a 19-character timestamp is shown whole, when the pane exists (dishes, name, cuisine and timestamp are strings) |
| Selection.ShownPositions | script.py:166-182 | row k on screen is the record at the returned list position, and the positions strictly increase, so equal records are told apart |
| Selection.DeleteRowAsWritten | script.py:267-277 | delete as written removes exactly the record at the row's position in the whole list, the others kept in order; declined, it changes nothing |
| Selection.EditRowAsWritten | script.py:250-265 | edit as written overwrites exactly the record at the row's position in the whole list and nothing else; cancelled, it changes nothing |
| Selection.ShownRowMismatch | script.py:274-275 | with list [a, b] and search "b", the only row shows b, yet deleting it removes a and editing it overwrites a |
| Selection.DeleteShownRow | script.py:274-275 | intended delete: the record removed is the one shown on the selected row, taken out at that row's own list position with the others kept in order, and the list shrinks by exactly that record; declined, it changes nothing |
| Selection.EditShownRow | script.py:256-263 | intended edit: the dialog's record replaces the one shown on the selected row, at that row's own list position, and nothing else; cancelled, it changes nothing |
| Selection.UnfilteredRowsAgree | script.py:166-182 | when every name is a string and the search is empty, the intended lookup and the code as written agree; `update_treeview` shows the same whole list in that case |

`Filter` is pure, so the in-memory list is never modified by a search.

## Left out

- The tkinter interface (widgets, styling, tree view, event loop, status bar, `update_treeview`) is presentation only. Warnings and error pop-ups are modelled as tagged values (`ValidationError`, `LoadError`, `Store.Event`).
- File I/O and JSON text are not modelled: `json.load` and `json.dump`, UTF-8 and indentation are library behaviour. The file is `DataFile`. A file whose creation, opening or parsing fails is `Corrupt`. A save is the flag `saveOk` plus the JSON value `Records.Serialize`.
- `datetime.now()` and its format are library behaviour. The reading is a parameter.
- Normalization.Coerce: Python's `float()` on strings is the parameter `parse`. An integer too large for a float, which Python rejects with OverflowError, is accepted here. A JSON number literal outside the float range, such as 1e400, loads as inf in Python but as an exact real here.
- Validation.Validate: coordinates are reals, so NaN and infinities are not modelled. This covers the strings "nan" and "inf" and the JSON literals NaN and Infinity. Python's dialog rejects those as out of range.
- Text.LowerChar: only ASCII and Latin-1 capitals are lower-cased. Python's `str.lower` also lower-cases other scripts and expands a few characters to two, which this model does not.
- The dialog's pre-filled entries (`body` and the `inputs` dict) are presentation only.
- Preview.PaneOf: a list-valued name, cuisine or timestamp, which Python would slice, is reported as no pane. When the refresh raises part-way, the labels set before the failing line already show the new record; "no pane" does not say which. The four-decimal coordinate formatting is not modelled.
- `on_select` sets `selected_index` from the row position in the same way edit and delete do. Only edit and delete are modelled in `Selection`.
- Store.EditItem: a tree left stale by a failed save can give a row index at or past the list's length (after one failed delete, its last row; after several, the last rows), where the script raises IndexError and the list is unchanged; the precondition excludes that index, so this error is not modelled.
- Store.DeleteItem: a tree left stale by a failed save can give a row index at or past the list's length (after one failed delete, its last row; after several, the last rows), where the script raises IndexError and the list is unchanged; the precondition excludes that index, so this error is not modelled. Rows below a deleted one are also off by one in a stale tree; `Selection` models only the filter refresh.

## Findings

| source | as written | input that shows it | evidently intended | confidence | as-written member | corrected member |
|---|---|---|---|---|---|---|
| script.py:256-263 | `edit_item` uses the row's position in the filtered tree as an index into the whole list | list [a, b], search "b", select the only row (b), edit | the record shown on the selected row is edited | high; not executed | Selection.EditRowAsWritten (shown by Selection.ShownRowMismatch) | Selection.EditShownRow |
| script.py:274-275 | `delete_item` uses the row's position in the filtered tree as an index into the whole list | list [a, b], search "b", select the only row (b), delete: a is removed and b kept | the record shown on the selected row is deleted | high; not executed | Selection.DeleteRowAsWritten (shown by Selection.ShownRowMismatch) | Selection.DeleteShownRow |

=== FILE: json.dfy ===
/** The JSON values that the data file can hold, as Python's `json.load`
    delivers them. Numbers are exact reals (integers included). */
module Json {

  datatype Value =
    | JNull
    | JBool(b: bool)
    | JNum(n: real)
    | JStr(s: string)
    | JArr(items: seq<Value>)
    | JObj(fields: map<string, Value>)
}

=== FILE: normalization.dfy ===
/** The load path of the editor (`JsonManagerApp.load_data`): read the data
    file, map every raw JSON object to a record with exactly the eight
    record keys, then save the result back.

    The loop appends to the live list, so an exception part-way leaves the
    records normalised so far in place and skips the save. Python's
    `float()` is the parameter `parse`; the clock reading taken for the
    item at position `i` is `clock(i)`. */
module Normalization {
  import opened Wrappers
  import opened Json
  import opened Records

  const DefaultName := "未命名店铺"
  const DefaultAddress := "地址未填写"
  const DefaultDishes := "暂无推荐菜品"
  const DefaultCuisine := "暂无分类"
  const DefaultRecommendation := "暂无推荐理由"

  /** Why a load stopped; each one is shown to the user as a load error. */
  datatype LoadError =
    | Unreadable           // the file could not be created, opened or parsed as JSON
    | NotIterable          // the top-level value is a number, a boolean or null
    | ItemNotObject        // an element has no `.get`: it is not a JSON object
    | CoordinateNotNumber  // `float()` rejected a latitude or longitude value

  /** The data file as the load finds it. */
  datatype DataFile =
    | Missing              // created as an empty array, then read back
    | Corrupt              // unreadable, or not valid JSON
    | Holds(content: Value)

  /** What the load leaves behind. `Loaded`: the list was replaced, a save
      of it was attempted (its result is ignored) and the tree refreshed.
      `Aborted`: the error was shown, no save was attempted, and the list is
      as the failure left it. */
  datatype LoadOutcome =
    | Loaded(data: seq<Record>)
    | Aborted(data: seq<Record>, error: LoadError)

  /** Python's `float(v)` on a value that came out of `json.load`. */
  function Coerce(v: Value, parse: string -> Option<real>): (r: Option<real>)
    ensures v.JNum? ==> r == Some(v.n)
    ensures v.JBool? ==> r == Some(if v.b then 1.0 else 0.0)
    ensures v.JStr? ==> r == parse(v.s)
    ensures v.JNull? || v.JArr? || v.JObj? ==> r.None?
  {
    match v
    case JNum(n) => Some(n)
    case JBool(b) => Some(if b then 1.0 else 0.0)
    case JStr(s) => parse(s)
    case _ => None
  }

  /** `item.get(k, d)` on a JSON object. */
  function Get(m: map<string, Value>, k: string, d: Value): Value
  {
    if k in m then m[k] else d
  }

  /** A key present in the raw object keeps its value; an absent one gets
      its default. */
  predicate KeptOrDefault(m: map<string, Value>, k: string, v: Value, d: Value)
  {
    (k in m ==> v == m[k]) && (k !in m ==> v == d)
  }

  /** A coordinate present in the raw object is its coerced value; an absent
      one is 0.0. */
  predicate CoercedOrZero(m: map<string, Value>, k: string, x: real, parse: string -> Option<real>)
  {
    (k in m ==> Coerce(m[k], parse) == Some(x)) && (k !in m ==> x == 0.0)
  }

  /** A present coordinate that `float()` rejects. */
  predicate BadCoordinate(m: map<string, Value>, k: string, parse: string -> Option<real>)
  {
    k in m && Coerce(m[k], parse).None?
  }

  /** One pass of the loop body: the record built from one raw element. */
  function NormalizeItem(item: Value, stamp: string, parse: string -> Option<real>): (r: Result<Record, LoadError>)
    ensures !item.JObj? ==> r == Failure(ItemNotObject)
    ensures item.JObj? ==>
      (r.Failure? <==> BadCoordinate(item.fields, LatitudeKey, parse) || BadCoordinate(item.fields, LongitudeKey, parse))
    ensures r.Failure? && item.JObj? ==> r.error == CoordinateNotNumber
    ensures r.Success? ==>
      var m := item.fields;
      && KeptOrDefault(m, NameKey, r.value.name, JStr(DefaultName))
      && KeptOrDefault(m, AddressKey, r.value.address, JStr(DefaultAddress))
      && KeptOrDefault(m, DishesKey, r.value.dishes, JStr(DefaultDishes))
      && KeptOrDefault(m, CuisineKey, r.value.cuisine, JStr(DefaultCuisine))
      && KeptOrDefault(m, RecommendationKey, r.value.recommendation, JStr(DefaultRecommendation))
      && CoercedOrZero(m, LatitudeKey, r.value.latitude, parse)
      && CoercedOrZero(m, LongitudeKey, r.value.longitude, parse)
      && KeptOrDefault(m, UpdatedKey, r.value.updated, JStr(stamp))
  {
    match item
    case JObj(m) =>
      var lat := Coerce(Get(m, LatitudeKey, JNum(0.0)), parse);
      var lon := Coerce(Get(m, LongitudeKey, JNum(0.0)), parse);
      if lat.None? || lon.None? then Failure(CoordinateNotNumber)
      else Success(Record(
        Get(m, NameKey, JStr(DefaultName)),
        Get(m, AddressKey, JStr(DefaultAddress)),
        Get(m, DishesKey, JStr(DefaultDishes)),
        Get(m, CuisineKey, JStr(DefaultCuisine)),
        Get(m, RecommendationKey, JStr(DefaultRecommendation)),
        lat.value,
        lon.value,
        Get(m, UpdatedKey, JStr(stamp))))
    case _ => Failure(ItemNotObject)
  }

  /** Normalising the saved form of a record gives the record back, whatever
      the clock says and however `float()` treats strings. */
  lemma NormalizeSavedRecord(rec: Record, stamp: string, parse: string -> Option<real>)
    ensures NormalizeItem(JObj(ToObject(rec)), stamp, parse) == Success(rec)
  {
    var m := ToObject(rec);
    assert LatitudeKey in m && LongitudeKey in m;
  }

  /** Keys other than the eight record keys play no part. */
  lemma NormalizeIgnoresExtraKeys(m: map<string, Value>, extra: map<string, Value>, stamp: string, parse: string -> Option<real>)
    requires extra.Keys !! RecordKeys
    ensures NormalizeItem(JObj(m + extra), stamp, parse) == NormalizeItem(JObj(m), stamp, parse)
  {
    var n := m + extra;
    assert forall k :: k in RecordKeys ==> (k in n <==> k in m) && (k in m ==> n[k] == m[k]);
  }

  /** The loop over a JSON array, as a reference: every element normalised
      in order, stopping at the first failure. */
  function NormalizeAll(items: seq<Value>, clock: nat -> string, parse: string -> Option<real>): (r: LoadOutcome)
    ensures r.Loaded? ==>
      && |r.data| == |items|
      && forall i :: 0 <= i < |items| ==> NormalizeItem(items[i], clock(i), parse) == Success(r.data[i])
    ensures r.Aborted? ==>
      && |r.data| < |items|
      && (forall i :: 0 <= i < |r.data| ==> NormalizeItem(items[i], clock(i), parse) == Success(r.data[i]))
      && NormalizeItem(items[|r.data|], clock(|r.data|), parse) == Failure(r.error)
    decreases |items|
  {
    if |items| == 0 then Loaded([])
    else
      var n := |items| - 1;
      var prefix := NormalizeAll(items[..n], clock, parse);
      if prefix.Aborted? then prefix
      else match NormalizeItem(items[n], clock(n), parse)
        case Success(rec) => Loaded(prefix.data + [rec])
        case Failure(e) => Aborted(prefix.data, e)
  }

  /** One step of the loop: the normalised prefix, then the last element. */
  lemma NormalizeAllStep(items: seq<Value>, clock: nat -> string, parse: string -> Option<real>)
    requires |items| > 0
    ensures NormalizeAll(items, clock, parse) ==
      (var n := |items| - 1;
       var prefix := NormalizeAll(items[..n], clock, parse);
       if prefix.Aborted? then prefix
       else match NormalizeItem(items[n], clock(n), parse)
         case Success(rec) => Loaded(prefix.data + [rec])
         case Failure(e) => Aborted(prefix.data, e))
  {
  }

  /** The loop body: from a completed prefix, the next element either
      extends the list or aborts with its error. */
  lemma LoopStep(items: seq<Value>, i: nat, data: seq<Record>, clock: nat -> string, parse: string -> Option<real>)
    requires i < |items|
    requires NormalizeAll(items[..i], clock, parse) == Loaded(data)
    ensures NormalizeAll(items[..i + 1], clock, parse) ==
      match NormalizeItem(items[i], clock(i), parse)
      case Success(rec) => Loaded(data + [rec])
      case Failure(e) => Aborted(data, e)
  {
    assert items[..i + 1][..i] == items[..i];
    NormalizeAllStep(items[..i + 1], clock, parse);
  }

  /** The whole load: reading the file, then the loop. The list is reset to
      empty after a successful read and before the loop, so a top-level value
      that cannot be iterated, or whose first element has no `.get`, leaves
      an empty list; an unreadable file leaves the previous list. */
  function Load(previous: seq<Record>, file: DataFile, clock: nat -> string, parse: string -> Option<real>): (r: LoadOutcome)
    ensures file.Corrupt? ==> r == Aborted(previous, Unreadable)
    ensures file.Missing? ==> r == Loaded([])
    ensures file.Holds? && file.content.JArr? ==>
      && r == NormalizeAll(file.content.items, clock, parse)
      && (r.Loaded? <==> forall i :: 0 <= i < |file.content.items| ==>
            NormalizeItem(file.content.items[i], clock(i), parse).Success?)
    ensures file.Holds? && (file.content == JObj(map[]) || file.content == JStr([])) ==> r == Loaded([])
    ensures file.Holds? && ((file.content.JObj? && file.content.fields != map[]) || (file.content.JStr? && file.content.s != [])) ==>
      r == Aborted([], ItemNotObject)
    ensures file.Holds? && (file.content.JNum? || file.content.JBool? || file.content.JNull?) ==>
      r == Aborted([], NotIterable)
  {
    match file
    case Corrupt => Aborted(previous, Unreadable)
    case Missing => Loaded([])
    case Holds(v) =>
      match v
      case JArr(items) => NormalizeAll(items, clock, parse)
      // Iterating a dict yields its keys and iterating a string its
      // characters: strings, which have no `.get`.
      case JObj(m) => if m == map[] then Loaded([]) else Aborted([], ItemNotObject)
      case JStr(s) => if s == [] then Loaded([]) else Aborted([], ItemNotObject)
      case _ => Aborted([], NotIterable)
  }

  /** Once the loop has stopped on a prefix, the rest of the array does not
      matter. */
  lemma {:induction false} AbortedPrefixIsFinal(items: seq<Value>, k: nat, clock: nat -> string, parse: string -> Option<real>)
    requires k <= |items|
    requires NormalizeAll(items[..k], clock, parse).Aborted?
    ensures NormalizeAll(items, clock, parse) == NormalizeAll(items[..k], clock, parse)
    decreases |items| - k
  {
    if k < |items| {
      var n := |items| - 1;
      assert items[..n][..k] == items[..k];
      AbortedPrefixIsFinal(items[..n], k, clock, parse);
      NormalizeAllStep(items, clock, parse);
    } else {
      assert items[..k] == items;
    }
  }

  /** The loop of `load_data` over the elements of the top-level value. */
  method LoadData(previous: seq<Record>, file: DataFile, clock: nat -> string, parse: string -> Option<real>)
    returns (r: LoadOutcome)
    ensures r == Load(previous, file, clock, parse)
  {
    if !file.Holds? || !file.content.JArr? {
      return Load(previous, file, clock, parse);
    }
    var items := file.content.items;
    var data: seq<Record> := [];
    var i := 0;
    while i < |items|
      invariant 0 <= i <= |items|
      invariant NormalizeAll(items[..i], clock, parse) == Loaded(data)
    {
      var next := NormalizeItem(items[i], clock(i), parse);
      LoopStep(items, i, data, clock, parse);
      if next.Failure? {
        AbortedPrefixIsFinal(items, i + 1, clock, parse);
        return Aborted(data, next.error);
      }
      data := data + [next.value];
      i := i + 1;
    }
    assert items[..i] == items;
    r := Loaded(data);
  }

  /** Loading a file that a save wrote gives back exactly the saved list:
      the load/normalise/save cycle is idempotent on stored records. */
  lemma LoadSaved(previous: seq<Record>, data: seq<Record>, clock: nat -> string, parse: string -> Option<real>)
    ensures Load(previous, Holds(Serialize(data)), clock, parse) == Loaded(data)
  {
    NormalizeAllSaved(data, |data|, clock, parse);
    assert Serialize(data).items[..|data|] == Serialize(data).items;
    assert data[..|data|] == data;
  }

  lemma {:induction false} NormalizeAllSaved(data: seq<Record>, k: nat, clock: nat -> string, parse: string -> Option<real>)
    requires k <= |data|
    ensures NormalizeAll(Serialize(data).items[..k], clock, parse) == Loaded(data[..k])
  {
    var items := Serialize(data).items;
    if k > 0 {
      NormalizeAllSaved(data, k - 1, clock, parse);
      NormalizeSavedRecord(data[k - 1], clock(k - 1), parse);
      LoopStep(items, k - 1, data[..k - 1], clock, parse);
      assert data[..k - 1] + [data[k - 1]] == data[..k];
    }
  }
}

=== FILE: preview.dfy ===
/** The detail pane (`JsonManagerApp.update_preview`): the selected record
    with the name cut to 20 characters, the cuisine to 15, the timestamp to
    19, and the dishes shown one per line. */
module Preview {
  import opened Wrappers
  import opened Json
  import opened Text
  import opened Records

  const NameWidth: nat := 20
  const CuisineWidth: nat := 15
  const UpdatedWidth: nat := 19

  /** Every piece of a list, stripped. */
  function StripAll(parts: seq<string>): (r: seq<string>)
    ensures |r| == |parts|
    ensures forall k :: 0 <= k < |parts| ==> r[k] == Strip(parts[k])
  {
    seq(|parts|, k requires 0 <= k < |parts| => Strip(parts[k]))
  }

  /** The dishes text as displayed: cut at every comma into comma-free
      pieces, each piece stripped, the pieces joined with line breaks.
      Without a comma that is the stripped text. When the text has no line
      break of its own, the display has one line per comma-separated dish,
      in order, each the stripped dish: one more line than there are
      commas. */
  function DishesDisplay(dishes: string): (r: string)
    ensures exists parts: seq<string> ::
      && |parts| == Occurrences(dishes, ',') + 1
      && (forall k :: 0 <= k < |parts| ==> ',' !in parts[k])
      && Join(parts, ",") == dishes
      && r == Join(StripAll(parts), "\n")
    ensures ',' !in dishes ==> r == Strip(dishes)
    ensures '\n' !in dishes ==> Split(r, '\n') == StripAll(Split(dishes, ','))
    ensures '\n' !in dishes ==> |Split(r, '\n')| == Occurrences(dishes, ',') + 1
  {
    var pieces := StripAll(Split(dishes, ','));
    assert ',' !in dishes ==> Split(dishes, ',') == [dishes] by {
      if ',' !in dishes {
        SplitJoin([dishes], ',');
        assert Join([dishes], [',']) == dishes;
      }
    }
    assert '\n' !in dishes ==> Split(Join(pieces, "\n"), '\n') == pieces by {
      if '\n' !in dishes {
        SplitPiecesAvoid(dishes, ',', '\n');
        assert forall k :: 0 <= k < |pieces| ==> '\n' !in pieces[k];
        SplitJoin(pieces, '\n');
      }
    }
    Join(pieces, "\n")
  }

  /** The texts the pane shows. The coordinates are kept as numbers; their
      four-decimal formatting is not modelled. */
  datatype Pane = Pane(
    name: string,
    cuisine: string,
    address: Value,
    dishes: string,
    recommendation: Value,
    latitude: real,
    longitude: real,
    updated: string)

  /** The pane for a record, or `None` when a field that is split or sliced
      is not a string and the refresh raises, possibly part-way. The dishes
      text is computed before any label is set; then the name, cuisine,
      address, dishes, recommendation, coordinates and timestamp labels are
      set in that order. So a non-string cuisine leaves the new name shown
      and the other labels as they were, and a non-string timestamp leaves
      every other label showing the new record. */
  function PaneOf(rec: Record): (r: Option<Pane>)
    ensures r.Some? <==> rec.dishes.JStr? && rec.name.JStr? && rec.cuisine.JStr? && rec.updated.JStr?
    ensures r.Some? ==>
      && r.value.dishes == DishesDisplay(rec.dishes.s)
      && (',' !in rec.dishes.s ==> r.value.dishes == Strip(rec.dishes.s))
      && ('\n' !in rec.dishes.s ==> Split(r.value.dishes, '\n') == StripAll(Split(rec.dishes.s, ',')))
      && IsPrefix(r.value.name, rec.name.s)
      && |r.value.name| == (if |rec.name.s| <= NameWidth then |rec.name.s| else NameWidth)
      && IsPrefix(r.value.cuisine, rec.cuisine.s)
      && |r.value.cuisine| == (if |rec.cuisine.s| <= CuisineWidth then |rec.cuisine.s| else CuisineWidth)
      && IsPrefix(r.value.updated, rec.updated.s)
      && |r.value.updated| == (if |rec.updated.s| <= UpdatedWidth then |rec.updated.s| else UpdatedWidth)
      && r.value.address == rec.address && r.value.recommendation == rec.recommendation
      && r.value.latitude == rec.latitude && r.value.longitude == rec.longitude
  {
    if !(rec.dishes.JStr? && rec.name.JStr? && rec.cuisine.JStr? && rec.updated.JStr?) then None
    else Some(Pane(
      Truncate(rec.name.s, NameWidth),
      Truncate(rec.cuisine.s, CuisineWidth),
      rec.address,
      DishesDisplay(rec.dishes.s),
      rec.recommendation,
      rec.latitude,
      rec.longitude,
      Truncate(rec.updated.s, UpdatedWidth)))
  }

  /** A timestamp of the `YYYY-MM-DD HH:MM:SS` form is shown whole. */
  lemma FullTimestampIsShownWhole(rec: Record)
    requires rec.dishes.JStr? && rec.name.JStr? && rec.cuisine.JStr? && rec.updated.JStr?
    requires |rec.updated.s| == 19
    ensures PaneOf(rec).value.updated == rec.updated.s
  {
  }
}

=== FILE: records.dfy ===
/** The shop record held in the editor's in-memory list, and its JSON form.

    After a load every record has exactly the eight keys below. The five
    text keys and `updated` keep whatever JSON value the file held under
    them (a load does not check their type), while `latitude` and
    `longitude` have been coerced to numbers. Records built by the edit
    dialog hold strings in every text key. */
module Records {
  import opened Json

  const NameKey := "name"
  const AddressKey := "address"
  const DishesKey := "dishes"
  const CuisineKey := "cuisine"
  const RecommendationKey := "recommendation"
  const LatitudeKey := "latitude"
  const LongitudeKey := "longitude"
  const UpdatedKey := "updated"

  /** The eight keys of a stored record. */
  const RecordKeys: set<string> :=
    {NameKey, AddressKey, DishesKey, CuisineKey, RecommendationKey, LatitudeKey, LongitudeKey, UpdatedKey}

  datatype Record = Record(
    name: Value,
    address: Value,
    dishes: Value,
    cuisine: Value,
    recommendation: Value,
    latitude: real,
    longitude: real,
    updated: Value)

  /** The JSON object a record is saved as: one entry per key, the
      coordinates as numbers. */
  function ToObject(r: Record): (m: map<string, Value>)
    ensures m.Keys == RecordKeys
    ensures m[NameKey] == r.name && m[AddressKey] == r.address && m[DishesKey] == r.dishes
    ensures m[CuisineKey] == r.cuisine && m[RecommendationKey] == r.recommendation
    ensures m[LatitudeKey] == JNum(r.latitude) && m[LongitudeKey] == JNum(r.longitude)
    ensures m[UpdatedKey] == r.updated
  {
    map[NameKey := r.name, AddressKey := r.address, DishesKey := r.dishes,
        CuisineKey := r.cuisine, RecommendationKey := r.recommendation,
        LatitudeKey := JNum(r.latitude), LongitudeKey := JNum(r.longitude),
        UpdatedKey := r.updated]
  }

  /** The whole list as written by a save: a JSON array of record objects
      in list order. */
  function Serialize(data: seq<Record>): (v: Value)
    ensures v.JArr? && |v.items| == |data|
    ensures forall i :: 0 <= i < |data| ==> v.items[i] == JObj(ToObject(data[i]))
    ensures forall i :: 0 <= i < |data| ==> v.items[i].JObj? && v.items[i].fields.Keys == RecordKeys
  {
    JArr(seq(|data|, i requires 0 <= i < |data| => JObj(ToObject(data[i]))))
  }
}

=== FILE: search.dfy ===
/** The search box (`JsonManagerApp.filter_data`): keep, in list order, the
    records whose lower-cased name, cuisine or dishes contain the
    lower-cased keyword. The in-memory list itself is never changed.

    Python evaluates `keyword in item["name"].lower() or ...` left to right,
    so a field whose value is not a string raises only when it is reached;
    such a raise aborts the whole refresh before the tree is cleared, and is
    `None` here. */
module Search {
  import opened Wrappers
  import opened Json
  import opened Text
  import opened Records

  /** `keyword in v.lower()`, or `None` when `v` has no `.lower()`. */
  function FieldContains(v: Value, keyword: string): (r: Option<bool>)
    ensures r.Some? <==> v.JStr?
    ensures r.Some? ==> (r.value <==> Contains(Lower(v.s), keyword))
  {
    match v
    case JStr(s) => Some(Contains(Lower(s), keyword))
    case _ => None
  }

  /** The `or` of the three field tests, short-circuiting like Python's. */
  function Matches(rec: Record, keyword: string): Option<bool>
  {
    match FieldContains(rec.name, keyword)
    case None => None
    case Some(true) => Some(true)
    case Some(false) =>
      match FieldContains(rec.cuisine, keyword)
      case None => None
      case Some(true) => Some(true)
      case Some(false) => FieldContains(rec.dishes, keyword)
  }

  /** When the test of a record raises, stated on its own: the name is not
      a string; or the name lacks `keyword` (already lower-cased) and the
      cuisine is not a string; or neither name nor cuisine has it and the
      dishes are not a string. */
  predicate Raises(rec: Record, keyword: string)
  {
    || !rec.name.JStr?
    || (!Contains(Lower(rec.name.s), keyword) && !rec.cuisine.JStr?)
    || (!Contains(Lower(rec.name.s), keyword) && !Contains(Lower(rec.cuisine.s), keyword) && !rec.dishes.JStr?)
  }

  /** The search criterion, stated on its own: `keyword` (already
      lower-cased) occurs in one of the three lower-cased fields that the
      test reaches. */
  predicate Selected(rec: Record, keyword: string)
    requires !Raises(rec, keyword)
  {
    || Contains(Lower(rec.name.s), keyword)
    || Contains(Lower(rec.cuisine.s), keyword)
    || Contains(Lower(rec.dishes.s), keyword)
  }

  /** The test of one record raises exactly when `Raises` says so, and
      otherwise answers the criterion. */
  lemma MatchesMeetsCriterion(rec: Record, keyword: string)
    ensures Matches(rec, keyword).None? <==> Raises(rec, keyword)
    ensures Matches(rec, keyword).Some? ==> Matches(rec, keyword).value == Selected(rec, keyword)
  {
  }

  /** No record's test raises. */
  predicate NoneRaises(data: seq<Record>, keyword: string)
  {
    forall i :: 0 <= i < |data| ==> !Raises(data[i], keyword)
  }

  /** `sub` is `s` with some elements left out, the rest in order. */
  ghost predicate IsSubsequence<T>(sub: seq<T>, s: seq<T>)
    decreases |s|
  {
    if |sub| == 0 then true
    else if |s| == 0 then false
    else (sub[0] == s[0] && IsSubsequence(sub[1..], s[1..])) || IsSubsequence(sub, s[1..])
  }

  /** How many records of `data` meet the criterion. */
  ghost function CountSelected(data: seq<Record>, keyword: string): nat
    requires NoneRaises(data, keyword)
  {
    if |data| == 0 then 0
    else (if Selected(data[0], keyword) then 1 else 0) + CountSelected(data[1..], keyword)
  }

  /** The list comprehension over an already lower-cased `keyword`. It
      raises exactly when some record's test raises; otherwise it returns
      an order-preserving subsequence of the data, every member of which
      meets the criterion, and which is as long as the number of records
      meeting it: exactly the matching records, in their original order. */
  function FilterLowered(data: seq<Record>, keyword: string): (r: Option<seq<Record>>)
    ensures r.Some? <==> NoneRaises(data, keyword)
    ensures r.Some? ==>
      && IsSubsequence(r.value, data)
      && (forall k :: 0 <= k < |r.value| ==> !Raises(r.value[k], keyword) && Selected(r.value[k], keyword))
      && |r.value| == CountSelected(data, keyword)
    ensures r.Some? ==> |r.value| <= |data|
  {
    if |data| == 0 then Some([])
    else
      var m := Matches(data[0], keyword);
      var rest := FilterLowered(data[1..], keyword);
      MatchesMeetsCriterion(data[0], keyword);
      assert forall i :: 1 <= i < |data| ==> data[i] == data[1..][i - 1];
      assert NoneRaises(data, keyword) <==> !Raises(data[0], keyword) && NoneRaises(data[1..], keyword);
      if m.None? || rest.None? then None
      else
        var r := if m.value then [data[0]] + rest.value else rest.value;
        assert m.value ==> r[1..] == rest.value;
        SubsequenceOfTail(rest.value, data);
        Some(r)
  }

  /** One step of the filter loop: the first record's match, then the rest. */
  lemma FilterLoweredStep(data: seq<Record>, keyword: string)
    requires |data| > 0
    ensures FilterLowered(data, keyword) ==
      (var m := Matches(data[0], keyword);
       var rest := FilterLowered(data[1..], keyword);
       if m.None? || rest.None? then None
       else Some(if m.value then [data[0]] + rest.value else rest.value))
  {
  }

  lemma SubsequenceOfTail<T>(sub: seq<T>, s: seq<T>)
    requires |s| > 0 && IsSubsequence(sub, s[1..])
    ensures IsSubsequence(sub, s)
  {
  }

  /** What the tree view shows for the search text `keyword`: the refresh
      raises, and the tree keeps its previous rows, exactly when some
      record's test raises (in particular when some name is not a string);
      otherwise the tree shows exactly the records in whose lower-cased
      name, cuisine or dishes the lower-cased keyword occurs, in list order.
      The list itself is not changed. */
  function Filter(data: seq<Record>, keyword: string): (r: Option<seq<Record>>)
    ensures r.None? <==> exists i :: 0 <= i < |data| && Raises(data[i], Lower(keyword))
    ensures (exists i :: 0 <= i < |data| && !data[i].name.JStr?) ==> r.None?
    ensures r.Some? ==>
      && IsSubsequence(r.value, data)
      && (forall k :: 0 <= k < |r.value| ==> !Raises(r.value[k], Lower(keyword)) && Selected(r.value[k], Lower(keyword)))
      && |r.value| == CountSelected(data, Lower(keyword))
  {
    FilterLowered(data, Lower(keyword))
  }

  /** An empty search keeps every record, provided the names are strings
      (the first test, `"" in name.lower()`, already succeeds). */
  lemma {:induction false} EmptyKeywordKeepsAll(data: seq<Record>)
    requires forall i :: 0 <= i < |data| ==> data[i].name.JStr?
    ensures Filter(data, []) == Some(data)
  {
    assert Lower([]) == [];
    EmptyKeywordKeepsAllLowered(data);
  }

  lemma {:induction false} EmptyKeywordKeepsAllLowered(data: seq<Record>)
    requires forall i :: 0 <= i < |data| ==> data[i].name.JStr?
    ensures FilterLowered(data, []) == Some(data)
  {
    if |data| > 0 {
      ContainsEmpty(Lower(data[0].name.s));
      EmptyKeywordKeepsAllLowered(data[1..]);
      assert [data[0]] + data[1..] == data;
    }
  }

  /** A record whose name contains the search text literally is shown,
      whatever the case of either, when no record's test raises. */
  lemma {:induction false} LiteralNameMatchIsShown(data: seq<Record>, keyword: string, i: nat)
    requires NoneRaises(data, Lower(keyword))
    requires i < |data| && data[i].name.JStr? && Contains(data[i].name.s, keyword)
    ensures data[i] in Filter(data, keyword).value
  {
    ContainsLower(data[i].name.s, keyword);
    SelectedIsKept(data, Lower(keyword), i);
  }

  lemma {:induction false} SelectedIsKept(data: seq<Record>, keyword: string, i: nat)
    requires NoneRaises(data, keyword)
    requires i < |data| && Selected(data[i], keyword)
    ensures FilterLowered(data, keyword).Some?
    ensures data[i] in FilterLowered(data, keyword).value
  {
    assert NoneRaises(data[1..], keyword);
    MatchesMeetsCriterion(data[0], keyword);
    if i > 0 {
      SelectedIsKept(data[1..], keyword, i - 1);
    }
  }
}

=== FILE: selection.dfy ===
/** Which record a selected row of the tree view stands for.

    The tree shows the list as of its last refresh. A filter refresh
    (`filter_data`, run on every change of the search box) shows the
    filter's result; `update_treeview`, run after a load and after every
    successful save, shows the whole list whatever the search box holds.
    The row position that `tree.index` returns counts only the rows on
    screen, and `edit_item` and `delete_item` use it directly as an index
    into the whole list. That picks a different record whenever the last
    refresh was a filter that hid an earlier record. Here `keyword` is the
    text of the tree's last filter refresh. After `update_treeview` the tree
    shows the whole list whatever the names hold, which is the same as the
    filter with `[]` only when every name is a string; `UnfilteredRowsAgree`
    covers that case. A tree left stale by a failed save is not modelled.
    This module models both the code as written and the evidently intended
    lookup through the shown rows. */
module Selection {
  import opened Wrappers
  import opened Json
  import opened Text
  import opened Records
  import opened Search
  import opened Store

  /** Each position of `idx` shifted one to the right. */
  function Shift(idx: seq<nat>): (r: seq<nat>)
    ensures |r| == |idx|
    ensures forall k :: 0 <= k < |idx| ==> r[k] == idx[k] + 1
  {
    seq(|idx|, k requires 0 <= k < |idx| => idx[k] + 1)
  }

  /** Strictly increasing positions. */
  predicate Increasing(idx: seq<nat>)
  {
    forall k, l :: 0 <= k < l < |idx| ==> idx[k] < idx[l]
  }

  /** The list positions of the rows the filter shows (`keyword` already
      lower-cased): row `k` on screen is record `r[k]` of the list, and the
      rows keep the list's order, so equal records are told apart by their
      own positions. */
  function ShownPositions(data: seq<Record>, keyword: string): (r: Option<seq<nat>>)
    ensures r.Some? <==> FilterLowered(data, keyword).Some?
    ensures r.Some? ==>
      && |r.value| == |FilterLowered(data, keyword).value|
      && Increasing(r.value)
      && forall k :: 0 <= k < |r.value| ==>
           r.value[k] < |data| && data[r.value[k]] == FilterLowered(data, keyword).value[k]
  {
    if |data| == 0 then Some([])
    else
      var m := Matches(data[0], keyword);
      var rest := ShownPositions(data[1..], keyword);
      if m.None? || rest.None? then None
      else
        var tail := FilterLowered(data[1..], keyword).value;
        var shown := if m.value then [data[0]] + tail else tail;
        FilterLoweredStep(data, keyword);
        ShiftedPositions(data, tail, rest.value);
        var r := (if m.value then [0] else []) + Shift(rest.value);
        assert m.value ==> r[1..] == Shift(rest.value) && shown[1..] == tail;
        Some(r)
  }

  /** Positions into the tail of a list, shifted, are positions into the
      list holding the same records. */
  lemma ShiftedPositions(data: seq<Record>, rows: seq<Record>, idx: seq<nat>)
    requires |data| > 0 && |idx| == |rows|
    requires forall k :: 0 <= k < |idx| ==> idx[k] < |data| - 1 && data[1..][idx[k]] == rows[k]
    requires Increasing(idx)
    ensures forall k :: 0 <= k < |idx| ==> Shift(idx)[k] < |data| && data[Shift(idx)[k]] == rows[k]
    ensures Increasing(Shift(idx)) && Increasing([0] + Shift(idx))
  {
    var s := [0] + Shift(idx);
    assert forall k :: 1 <= k < |s| ==> s[k] == idx[k - 1] + 1;
  }

  /** Delete as written: the row position is used as a list position. */
  function DeleteRowAsWritten(data: seq<Record>, row: nat, confirmed: bool, saveOk: bool): (r: Step)
    requires row < |data|
    ensures confirmed ==> r.data == data[..row] + data[row + 1..]
    ensures confirmed ==> |r.data| == |data| - 1 && multiset(r.data) + multiset{data[row]} == multiset(data)
    ensures !confirmed ==> r.data == data
  {
    DeleteItem(data, Some(row), confirmed, saveOk)
  }

  /** Edit as written: the row position is used as a list position. */
  function EditRowAsWritten(data: seq<Record>, row: nat, dialog: Option<Record>, saveOk: bool): (r: Step)
    requires row < |data|
    ensures dialog.Some? ==> r.data == data[row := dialog.value]
    ensures dialog.None? ==> r.data == data
  {
    EditItem(data, Some(row), dialog, saveOk)
  }

  /** A record with the given name and empty text everywhere else. */
  function Named(name: string): Record
  {
    Record(JStr(name), JStr([]), JStr([]), JStr([]), JStr([]), 0.0, 0.0, JStr([]))
  }

  /** With the list [a, b] and the search text "b", the only row shown is b. */
  lemma OnlyBIsShown()
    ensures Filter([Named("a"), Named("b")], "b") == Some([Named("b")])
  {
    var a := Named("a");
    var b := Named("b");
    assert Lower("a") == "a" && Lower("b") == "b";
    assert Lower([]) == [];
    assert !Contains("a", "b") by {
      forall i | 0 <= i <= |"a"| - |"b"| ensures !IsPrefix("b", "a"[i..]) {
        assert "a"[i..][..1] == "a";
      }
    }
    assert !Contains([], "b");
    assert IsPrefix("b", "b"[0..]);
    assert Matches(a, "b") == Some(false);
    assert Matches(b, "b") == Some(true);
    assert [b][1..] == [];
    assert FilterLowered([b][1..], "b") == Some([]);
    assert [b][0] == b && [b] + [] == [b];
    FilterLoweredStep([b], "b");
    assert FilterLowered([b], "b") == Some([b]);
    assert [a, b][1..] == [b];
    FilterLoweredStep([a, b], "b");
  }

  /** With the list [a, b] and the search text "b", the only row shown is
      b; selecting it and deleting removes a and keeps b, and editing it
      overwrites a and leaves b as it was. */
  lemma ShownRowMismatch(rec: Record)
    ensures Filter([Named("a"), Named("b")], "b") == Some([Named("b")])
    ensures DeleteRowAsWritten([Named("a"), Named("b")], 0, true, true).data == [Named("b")]
    ensures EditRowAsWritten([Named("a"), Named("b")], 0, Some(rec), true).data == [rec, Named("b")]
  {
    OnlyBIsShown();
    var ab := [Named("a"), Named("b")];
    assert ab[..0] + ab[1..] == [Named("b")];
    assert ab[0 := rec] == [rec, Named("b")];
  }

  /** Delete, as intended: the record removed is the one shown on the
      selected row, at its own position, and the others keep their order. */
  function DeleteShownRow(data: seq<Record>, keyword: string, row: nat, confirmed: bool, saveOk: bool): (r: Step)
    requires Filter(data, keyword).Some? && row < |Filter(data, keyword).value|
    ensures confirmed ==>
      exists p :: && 0 <= p < |data| && p == ShownPositions(data, Lower(keyword)).value[row]
                  && data[p] == Filter(data, keyword).value[row] && r.data == data[..p] + data[p + 1..]
    ensures confirmed ==>
      && |r.data| == |data| - 1
      && multiset(r.data) + multiset{Filter(data, keyword).value[row]} == multiset(data)
    ensures !confirmed ==> r.data == data
  {
    var position := ShownPositions(data, Lower(keyword)).value[row];
    var r := DeleteItem(data, Some(position), confirmed, saveOk);
    assert confirmed ==> r.data == data[..position] + data[position + 1..];
    r
  }

  /** Edit, as intended: the dialog's record replaces the one shown on the
      selected row, at that record's own position, and nothing else. */
  function EditShownRow(data: seq<Record>, keyword: string, row: nat, dialog: Option<Record>, saveOk: bool): (r: Step)
    requires Filter(data, keyword).Some? && row < |Filter(data, keyword).value|
    ensures dialog.Some? ==>
      exists p :: && 0 <= p < |data| && p == ShownPositions(data, Lower(keyword)).value[row]
                  && data[p] == Filter(data, keyword).value[row] && r.data == data[p := dialog.value]
    ensures dialog.None? ==> r.data == data
  {
    var position := ShownPositions(data, Lower(keyword)).value[row];
    EditItem(data, Some(position), dialog, saveOk)
  }

  /** The positions 0, 1, ..., n - 1. */
  function Positions(n: nat): (r: seq<nat>)
    ensures |r| == n && forall k :: 0 <= k < n ==> r[k] == k
  {
    seq(n, k requires 0 <= k < n => k)
  }

  /** With the search box empty every record is shown in its own place. */
  lemma {:induction false} EmptyKeywordShowsEveryPosition(data: seq<Record>)
    requires forall i :: 0 <= i < |data| ==> data[i].name.JStr?
    ensures ShownPositions(data, []) == Some(Positions(|data|))
  {
    if |data| > 0 {
      EmptyKeywordShowsEveryPosition(data[1..]);
      ContainsEmpty(Lower(data[0].name.s));
      assert Matches(data[0], []) == Some(true);
      assert [0] + Shift(Positions(|data| - 1)) == Positions(|data|);
    }
  }

  /** When every name is a string and the last refresh was a filter with an
      empty search text, or `update_treeview`, the tree shows the whole list
      and the intended lookup agrees with the code as written. */
  lemma UnfilteredRowsAgree(data: seq<Record>, row: nat, dialog: Option<Record>, confirmed: bool, saveOk: bool)
    requires forall i :: 0 <= i < |data| ==> data[i].name.JStr?
    requires row < |data|
    ensures Filter(data, []).Some? && row < |Filter(data, []).value|
    ensures DeleteShownRow(data, [], row, confirmed, saveOk) == DeleteRowAsWritten(data, row, confirmed, saveOk)
    ensures EditShownRow(data, [], row, dialog, saveOk) == EditRowAsWritten(data, row, dialog, saveOk)
  {
    EmptyKeywordKeepsAll(data);
    EmptyKeywordShowsEveryPosition(data);
    assert Lower([]) == [];
  }
}

=== FILE: store.dfy ===
/** The three list commands (`add_item`, `edit_item`, `delete_item`) on the
    in-memory list. Each one changes the list first and then saves the whole
    list; a failed save shows an error and skips the tree refresh, but does
    not undo the change. The save's success is the parameter `saveOk`, the
    dialog's outcome is an `Option<Record>` (see `Validation.RunDialog`), and
    the selection is the optional index the command uses into the list. The
    code takes that index from the selected tree row, whose position is the
    record's list position unless the tree's last refresh was a filter that
    hid an earlier record (see `Selection`) or the tree is stale after a
    failed save. An index at or past the end, which a stale tree can give,
    raises IndexError and is excluded by the precondition. */
module Store {
  import opened Wrappers
  import opened Json
  import opened Records
  import opened Validation
  import Normalization

  /** What the user sees after a command. */
  datatype Event =
    | NoAction          // the dialog was cancelled or the deletion declined
    | NothingSelected   // the "select an entry first" warning
    | Saved             // the list was saved and the tree refreshed
    | SaveFailed        // the save error was shown; the tree is stale

  datatype Step = Step(data: seq<Record>, event: Event)

  function SaveEvent(saveOk: bool): Event
  {
    if saveOk then Saved else SaveFailed
  }

  /** Add: a record from the dialog goes to the end of the list. */
  function AddItem(data: seq<Record>, dialog: Option<Record>, saveOk: bool): (r: Step)
    ensures dialog.None? ==> r == Step(data, NoAction)
    ensures dialog.Some? ==>
      && |r.data| == |data| + 1
      && r.data[..|data|] == data
      && r.data[|data|] == dialog.value
      && r.event == SaveEvent(saveOk)
  {
    match dialog
    case None => Step(data, NoAction)
    case Some(rec) => Step(data + [rec], SaveEvent(saveOk))
  }

  /** Edit: a record from the dialog replaces the selected position. */
  function EditItem(data: seq<Record>, selection: Option<nat>, dialog: Option<Record>, saveOk: bool): (r: Step)
    requires selection.Some? ==> selection.value < |data|
    ensures selection.None? ==> r == Step(data, NothingSelected)
    ensures selection.Some? && dialog.None? ==> r == Step(data, NoAction)
    ensures selection.Some? && dialog.Some? ==>
      && |r.data| == |data|
      && r.data[selection.value] == dialog.value
      && (forall j :: 0 <= j < |data| && j != selection.value ==> r.data[j] == data[j])
      && r.event == SaveEvent(saveOk)
  {
    match selection
    case None => Step(data, NothingSelected)
    case Some(index) =>
      match dialog
      case None => Step(data, NoAction)
      case Some(rec) => Step(data[index := rec], SaveEvent(saveOk))
  }

  /** Delete: after confirmation, the selected position is removed. */
  function DeleteItem(data: seq<Record>, selection: Option<nat>, confirmed: bool, saveOk: bool): (r: Step)
    requires selection.Some? ==> selection.value < |data|
    ensures selection.None? ==> r == Step(data, NothingSelected)
    ensures selection.Some? && !confirmed ==> r == Step(data, NoAction)
    ensures selection.Some? && confirmed ==>
      && |r.data| == |data| - 1
      && (forall j :: 0 <= j < selection.value ==> r.data[j] == data[j])
      && (forall j :: selection.value <= j < |r.data| ==> r.data[j] == data[j + 1])
      && multiset(r.data) + multiset{data[selection.value]} == multiset(data)
      && r.event == SaveEvent(saveOk)
  {
    match selection
    case None => Step(data, NothingSelected)
    case Some(index) =>
      if !confirmed then Step(data, NoAction)
      else
        assert data == data[..index] + [data[index]] + data[index + 1..];
        Step(data[..index] + data[index + 1..], SaveEvent(saveOk))
  }

  /** A dialog in which every submission was rejected changes nothing. */
  lemma RejectedDialogChangesNothing(data: seq<Record>, selection: Option<nat>, attempts: seq<Attempt>,
                                     parse: string -> Option<real>, saveOk: bool)
    requires selection.Some? ==> selection.value < |data|
    requires forall i :: 0 <= i < |attempts| ==> Validate(attempts[i].input, attempts[i].now, parse).Failure?
    ensures AddItem(data, RunDialog(attempts, parse), saveOk).data == data
    ensures EditItem(data, selection, RunDialog(attempts, parse), saveOk).data == data
  {
    assert forall i :: 0 <= i < |attempts| ==> Outcomes(attempts, parse)[i].Failure?;
  }

  /** Deleting the record just added restores the list. */
  lemma AddThenDeleteRestores(data: seq<Record>, rec: Record, saveOk: bool, saveOk': bool)
    ensures DeleteItem(AddItem(data, Some(rec), saveOk).data, Some(|data|), true, saveOk').data == data
  {
    var added := AddItem(data, Some(rec), saveOk).data;
    assert added[..|data|] == data;
  }

  /** Editing the same position twice keeps only the second edit. */
  lemma EditTwiceKeepsLast(data: seq<Record>, index: nat, a: Record, b: Record, saveOk: bool, saveOk': bool)
    requires index < |data|
    ensures EditItem(EditItem(data, Some(index), Some(a), saveOk).data, Some(index), Some(b), saveOk').data
         == EditItem(data, Some(index), Some(b), saveOk').data
  {
  }

  /** Every record in the list meets the dialog's rules. */
  predicate AllAcceptable(data: seq<Record>)
  {
    forall i :: 0 <= i < |data| ==> Acceptable(data[i])
  }

  /** The commands keep every record acceptable when the new record, if
      any, is acceptable (as every record a dialog produces is, by
      `Validation.DialogResultIsAcceptable`). */
  lemma CommandsPreserveAcceptable(data: seq<Record>, selection: Option<nat>, dialog: Option<Record>,
                                   confirmed: bool, saveOk: bool)
    requires selection.Some? ==> selection.value < |data|
    requires AllAcceptable(data)
    requires dialog.Some? ==> Acceptable(dialog.value)
    ensures AllAcceptable(AddItem(data, dialog, saveOk).data)
    ensures AllAcceptable(EditItem(data, selection, dialog, saveOk).data)
    ensures AllAcceptable(DeleteItem(data, selection, confirmed, saveOk).data)
  {
    var deleted := DeleteItem(data, selection, confirmed, saveOk).data;
    if selection.Some? && confirmed {
      forall j | 0 <= j < |deleted| ensures Acceptable(deleted[j]) {
        if j >= selection.value { assert deleted[j] == data[j + 1]; }
      }
    }
  }

  /** After an add whose save succeeded, reloading the file gives the old
      list with the new record last. */
  lemma ReloadAfterAdd(previous: seq<Record>, data: seq<Record>, rec: Record, clock: nat -> string,
                       parse: string -> Option<real>)
    ensures Normalization.Load(previous, Normalization.Holds(Serialize(AddItem(data, Some(rec), true).data)), clock, parse)
         == Normalization.Loaded(data + [rec])
  {
    Normalization.LoadSaved(previous, data + [rec], clock, parse);
  }
}

=== FILE: text.dfy ===
/** The string primitives the editor relies on, with Python's meaning:
    `str.strip()`, `str.lower()`, the substring test `needle in hay`,
    `str.split(sep)`, `sep.join(parts)` and the prefix slice `s[:n]`. */
module Text {

  /** Python's `str.isspace` for one character: the characters with
      bidirectional class WS, B or S, or general category Zs. */
  predicate IsSpace(c: char)
  {
    || c == ' ' || c == '\t' || c == '\n' || c == '\r'
    || c == '\U{000B}' || c == '\U{000C}'
    || ('\U{001C}' <= c <= '\U{001F}')
    || c == '\U{0085}' || c == '\U{00A0}' || c == '\U{1680}'
    || ('\U{2000}' <= c <= '\U{200A}')
    || c == '\U{2028}' || c == '\U{2029}' || c == '\U{202F}'
    || c == '\U{205F}' || c == '\U{3000}'
  }

  /** Every character of `s` is whitespace (vacuously true of ""). */
  predicate AllSpace(s: string)
  {
    forall i :: 0 <= i < |s| ==> IsSpace(s[i])
  }

  /** The length of the longest all-whitespace prefix of `s`. */
  function LeadingSpaces(s: string): (n: nat)
    ensures n <= |s|
    ensures AllSpace(s[..n])
    ensures n == |s| || !IsSpace(s[n])
  {
    if |s| > 0 && IsSpace(s[0]) then
      var n := 1 + LeadingSpaces(s[1..]);
      assert s[..n] == [s[0]] + s[1..][..n - 1];
      n
    else 0
  }

  /** The length of the longest all-whitespace suffix of `s`. */
  function TrailingSpaces(s: string): (n: nat)
    ensures n <= |s|
    ensures AllSpace(s[|s| - n..])
    ensures n == |s| || !IsSpace(s[|s| - n - 1])
  {
    if |s| > 0 && IsSpace(s[|s| - 1]) then
      var n := 1 + TrailingSpaces(s[..|s| - 1]);
      assert s[|s| - n..] == s[..|s| - 1][|s| - n..] + [s[|s| - 1]];
      n
    else 0
  }

  /** Python's `s.strip()`: `s` without its leading and trailing whitespace. */
  function Strip(s: string): (r: string)
    ensures |r| <= |s|
    ensures forall c :: c in r ==> c in s
    ensures r == [] || (!IsSpace(r[0]) && !IsSpace(r[|r| - 1]))
  {
    var t := s[LeadingSpaces(s)..];
    t[..|t| - TrailingSpaces(t)]
  }

  /** Strip removes exactly the surrounding whitespace: whenever `s` is
      whitespace, then a core that neither starts nor ends with whitespace,
      then whitespace, stripping returns that core. */
  lemma {:induction false} StripCharacterization(p: string, m: string, q: string)
    requires AllSpace(p) && AllSpace(q)
    requires m == [] || (!IsSpace(m[0]) && !IsSpace(m[|m| - 1]))
    ensures Strip(p + m + q) == m
  {
    var s := p + m + q;
    var a := LeadingSpaces(s);
    var t := s[a..];
    var b := TrailingSpaces(t);
    if m == [] {
      assert s == p + q;
      assert AllSpace(s) by {
        forall i | 0 <= i < |s| ensures IsSpace(s[i]) {
          if i < |p| { assert s[i] == p[i]; } else { assert s[i] == q[i - |p|]; }
        }
      }
      assert a == |s|;
      assert t == [];
    } else {
      assert s[|p|] == m[0];
      assert a == |p|;
      assert t == m + q;
      assert t[|m| - 1] == m[|m| - 1];
      assert b == |q|;
      assert t[..|t| - b] == m;
    }
  }

  /** Stripping twice is the same as stripping once. */
  lemma StripIdempotent(s: string)
    ensures Strip(Strip(s)) == Strip(s)
  {
    var m := Strip(s);
    assert [] + m + [] == m;
    StripCharacterization([], m, []);
  }

  /** A stripped string is empty exactly when the input is all whitespace. */
  lemma StripEmptyIffAllSpace(s: string)
    ensures Strip(s) == [] <==> AllSpace(s)
  {
    if AllSpace(s) {
      assert s + [] + [] == s;
      StripCharacterization(s, [], []);
    } else {
      var a := LeadingSpaces(s);
      assert a < |s|;
    }
  }

  /** `str.lower()` on one character: ASCII and Latin-1 capitals map to
      their small letters, every other character is unchanged. */
  function LowerChar(c: char): (r: char)
  {
    if 'A' <= c <= 'Z' then (c as int + 32) as char
    else if '\U{00C0}' <= c <= '\U{00DE}' && c != '\U{00D7}' then (c as int + 32) as char
    else c
  }

  /** Python's `s.lower()`, one character at a time. */
  function Lower(s: string): (r: string)
    ensures |r| == |s|
    ensures forall i :: 0 <= i < |s| ==> r[i] == LowerChar(s[i])
  {
    seq(|s|, i requires 0 <= i < |s| => LowerChar(s[i]))
  }

  /** `p` is a prefix of `s`. */
  predicate IsPrefix(p: string, s: string)
  {
    |p| <= |s| && s[..|p|] == p
  }

  /** Python's `needle in hay` for strings: `needle` occurs in `hay` at some
      position; the empty string occurs in every string. */
  predicate Contains(hay: string, needle: string)
  {
    exists i :: 0 <= i <= |hay| - |needle| && IsPrefix(needle, hay[i..])
  }

  /** The empty string is a substring of every string. */
  lemma ContainsEmpty(hay: string)
    ensures Contains(hay, [])
  {
    assert IsPrefix([], hay[0..]);
  }

  /** Lower-casing both sides keeps a substring a substring: a keyword that
      occurs literally also occurs case-insensitively. */
  lemma {:induction false} ContainsLower(hay: string, needle: string)
    requires Contains(hay, needle)
    ensures Contains(Lower(hay), Lower(needle))
  {
    var i :| 0 <= i <= |hay| - |needle| && IsPrefix(needle, hay[i..]);
    assert Lower(hay)[i..][..|needle|] == Lower(needle) by {
      forall k | 0 <= k < |needle|
        ensures Lower(hay)[i..][..|needle|][k] == Lower(needle)[k]
      {
        assert hay[i..][..|needle|][k] == needle[k];
      }
    }
    assert IsPrefix(Lower(needle), Lower(hay)[i..]);
  }

  /** Python's `s[:n]` for a non-negative `n`. */
  function Truncate(s: string, n: nat): (r: string)
    ensures IsPrefix(r, s)
    ensures |r| == if |s| <= n then |s| else n
  {
    if |s| <= n then s else s[..n]
  }

  /** Python's `sep.join(parts)`. */
  function Join(parts: seq<string>, sep: string): (r: string)
  {
    if |parts| == 0 then []
    else if |parts| == 1 then parts[0]
    else parts[0] + sep + Join(parts[1..], sep)
  }

  /** Joining a first part onto at least one more. */
  lemma JoinCons(p: string, rest: seq<string>, sep: string)
    requires |rest| >= 1
    ensures Join([p] + rest, sep) == p + sep + Join(rest, sep)
  {
    assert ([p] + rest)[1..] == rest;
  }

  /** The number of occurrences of `d` in `s`. */
  function Occurrences(s: string, d: char): (n: nat)
    ensures n <= |s|
  {
    if |s| == 0 then 0 else (if s[0] == d then 1 else 0) + Occurrences(s[1..], d)
  }

  /** The position of the first `d` in `s`. */
  function FirstIndex(s: string, d: char): (i: nat)
    requires d in s
    ensures i < |s| && s[i] == d && d !in s[..i]
  {
    if s[0] == d then 0 else 1 + FirstIndex(s[1..], d)
  }

  /** Python's `s.split(d)` for a one-character separator: the maximal
      separator-free pieces, always at least one, which joined with the
      separator give back `s`. */
  function Split(s: string, d: char): (r: seq<string>)
    ensures |r| == Occurrences(s, d) + 1
    ensures forall k :: 0 <= k < |r| ==> d !in r[k]
    ensures Join(r, [d]) == s
    decreases |s|
  {
    if d !in s then
      SplitWithoutSeparator(s, d);
      [s]
    else
      var i := FirstIndex(s, d);
      var rest := Split(s[i + 1..], d);
      SplitStep(s, d, i, rest);
      [s[..i]] + rest
  }

  /** The piece before the first separator, followed by the pieces of the
      text after it, splits the whole text. */
  lemma SplitStep(s: string, d: char, i: nat, rest: seq<string>)
    requires i < |s| && s[i] == d && d !in s[..i]
    requires |rest| == Occurrences(s[i + 1..], d) + 1
    requires forall k :: 0 <= k < |rest| ==> d !in rest[k]
    requires Join(rest, [d]) == s[i + 1..]
    ensures |[s[..i]] + rest| == Occurrences(s, d) + 1
    ensures forall k :: 0 <= k < |[s[..i]] + rest| ==> d !in ([s[..i]] + rest)[k]
    ensures Join([s[..i]] + rest, [d]) == s
  {
    OccurrencesSplit(s, i, d);
    JoinCons(s[..i], rest, [d]);
    assert s == s[..i] + [d] + s[i + 1..];
  }

  lemma {:induction false} SplitWithoutSeparator(s: string, d: char)
    requires d !in s
    ensures Occurrences(s, d) == 0
  {
    if |s| > 0 {
      SplitWithoutSeparator(s[1..], d);
    }
  }

  lemma {:induction false} OccurrencesSplit(s: string, i: nat, d: char)
    requires i < |s| && s[i] == d && d !in s[..i]
    ensures Occurrences(s, d) == 1 + Occurrences(s[i + 1..], d)
  {
    if i > 0 {
      assert s[0] != d by { assert s[..i][0] == s[0]; }
      OccurrencesSplit(s[1..], i - 1, d);
      assert s[1..][i..] == s[i + 1..];
    }
  }

  /** Splitting undoes joining when no part contains the separator. */
  lemma {:induction false} SplitJoin(parts: seq<string>, d: char)
    requires |parts| >= 1
    requires forall k :: 0 <= k < |parts| ==> d !in parts[k]
    ensures Split(Join(parts, [d]), d) == parts
    decreases |parts|
  {
    var s := Join(parts, [d]);
    if |parts| == 1 {
      assert s == parts[0];
    } else {
      var rest := Join(parts[1..], [d]);
      SplitJoin(parts[1..], d);
      assert s == parts[0] + [d] + rest;
      assert s[|parts[0]|] == d;
      assert s[..|parts[0]|] == parts[0];
      var i := FirstIndex(s, d);
      assert i == |parts[0]|;
      assert s[i + 1..] == rest;
    }
  }

  /** A character absent from `s` is absent from every piece of its split. */
  lemma {:induction false} SplitPiecesAvoid(s: string, d: char, c: char)
    requires c !in s
    ensures forall k :: 0 <= k < |Split(s, d)| ==> c !in Split(s, d)[k]
    decreases |s|
  {
    if d in s {
      var i := FirstIndex(s, d);
      assert c !in s[..i];
      assert c !in s[i + 1..];
      SplitPiecesAvoid(s[i + 1..], d, c);
    }
  }
}

=== FILE: validation.dfy ===
/** The add/edit dialog's validation (`AddEditDialog.validate` and `apply`).

    The dialog has seven entry boxes. Validation first builds the candidate
    record: the five text entries are stripped, latitude and longitude go
    through Python's `float()`, and `updated` is the current time. Then it
    checks the rules in a fixed order, and the first failure is reported.
    `float()` is the parameter `parse` and the clock reading is `now`. */
module Validation {
  import opened Wrappers
  import opened Json
  import opened Text
  import opened Records

  /** The raw contents of the dialog's seven entry boxes. */
  datatype FormInput = FormInput(
    name: string,
    address: string,
    dishes: string,
    cuisine: string,
    recommendation: string,
    latitude: string,
    longitude: string)

  /** The warning the dialog shows instead of closing. */
  datatype ValidationError =
    | InvalidNumber
    | EmptyName
    | RecommendationTooLong
    | LatitudeOutOfRange
    | LongitudeOutOfRange

  /** The longest recommendation, in characters, that the dialog accepts. */
  const MaxRecommendation: nat := 100

  predicate LatitudeInRange(x: real) { -90.0 <= x <= 90.0 }

  predicate LongitudeInRange(y: real) { -180.0 <= y <= 180.0 }

  /** One `validate` call: either the record the dialog stores in
      `values`, or the warning it shows. */
  function Validate(f: FormInput, now: string, parse: string -> Option<real>): (r: Result<Record, ValidationError>)
    ensures parse(f.latitude).None? || parse(f.longitude).None? ==> r == Failure(InvalidNumber)
    ensures r.Success? ==>
      && r.value.name == JStr(Strip(f.name)) && Strip(f.name) != []
      && r.value.address == JStr(Strip(f.address))
      && r.value.dishes == JStr(Strip(f.dishes))
      && r.value.cuisine == JStr(Strip(f.cuisine))
      && r.value.recommendation == JStr(Strip(f.recommendation))
      && |Strip(f.recommendation)| <= MaxRecommendation
      && parse(f.latitude) == Some(r.value.latitude) && LatitudeInRange(r.value.latitude)
      && parse(f.longitude) == Some(r.value.longitude) && LongitudeInRange(r.value.longitude)
      && r.value.updated == JStr(now)
  {
    match (parse(f.latitude), parse(f.longitude))
    case (Some(lat), Some(lon)) =>
      var values := Record(
        JStr(Strip(f.name)), JStr(Strip(f.address)), JStr(Strip(f.dishes)),
        JStr(Strip(f.cuisine)), JStr(Strip(f.recommendation)), lat, lon, JStr(now));
      if Strip(f.name) == [] then Failure(EmptyName)
      else if |Strip(f.recommendation)| > MaxRecommendation then Failure(RecommendationTooLong)
      else if !LatitudeInRange(lat) then Failure(LatitudeOutOfRange)
      else if !LongitudeInRange(lon) then Failure(LongitudeOutOfRange)
      else Success(values)
    case _ => Failure(InvalidNumber)
  }

  /** The position of each rule in the order the dialog checks them. */
  function Rank(e: ValidationError): nat
  {
    match e
    case InvalidNumber => 0
    case EmptyName => 1
    case RecommendationTooLong => 2
    case LatitudeOutOfRange => 3
    case LongitudeOutOfRange => 4
  }

  /** Whether the input breaks rule `e`, judged on its own, independently
      of every other rule. */
  predicate Violates(f: FormInput, e: ValidationError, parse: string -> Option<real>)
  {
    match e
    case InvalidNumber => parse(f.latitude).None? || parse(f.longitude).None?
    case EmptyName => AllSpace(f.name)
    case RecommendationTooLong => |Strip(f.recommendation)| > MaxRecommendation
    case LatitudeOutOfRange => parse(f.latitude).Some? && !LatitudeInRange(parse(f.latitude).value)
    case LongitudeOutOfRange => parse(f.longitude).Some? && !LongitudeInRange(parse(f.longitude).value)
  }

  /** The dialog reports `e` exactly when `e` is broken and every rule
      checked before it holds: the first failure wins. */
  lemma ValidateReportsFirstFailure(f: FormInput, now: string, parse: string -> Option<real>, e: ValidationError)
    ensures Validate(f, now, parse) == Failure(e) <==>
      Violates(f, e, parse) && forall e' :: Rank(e') < Rank(e) ==> !Violates(f, e', parse)
  {
    StripEmptyIffAllSpace(f.name);
    var r := Validate(f, now, parse);
    // The five ranks, spelled out so that the quantifier over earlier rules
    // can be instantiated at each of them.
    assert Rank(InvalidNumber) == 0 && Rank(EmptyName) == 1 && Rank(RecommendationTooLong) == 2;
    assert Rank(LatitudeOutOfRange) == 3 && Rank(LongitudeOutOfRange) == 4;
    if r == Failure(e) {
      forall e' | Rank(e') < Rank(e) ensures !Violates(f, e', parse) {
        match e'
        case InvalidNumber =>
        case EmptyName =>
        case RecommendationTooLong =>
        case LatitudeOutOfRange =>
        case LongitudeOutOfRange =>
      }
    }
  }

  /** The dialog accepts exactly when no rule is broken. */
  lemma ValidateAcceptsIffNoViolation(f: FormInput, now: string, parse: string -> Option<real>)
    ensures Validate(f, now, parse).Success? <==> forall e :: !Violates(f, e, parse)
  {
    StripEmptyIffAllSpace(f.name);
    if !Validate(f, now, parse).Success? {
      var e := Validate(f, now, parse).error;
      ValidateReportsFirstFailure(f, now, parse, e);
    }
  }

  /** An input that breaks exactly one rule is rejected with that rule's
      error, whatever the other fields hold. */
  lemma SingleViolationIsReported(f: FormInput, now: string, parse: string -> Option<real>, e: ValidationError)
    requires Violates(f, e, parse)
    requires forall e' :: e' != e ==> !Violates(f, e', parse)
    ensures Validate(f, now, parse) == Failure(e)
  {
    ValidateReportsFirstFailure(f, now, parse, e);
  }

  /** A stored record meets every rule the dialog enforces. */
  predicate Acceptable(r: Record)
  {
    && r.name.JStr? && r.name.s != [] && r.name.s == Strip(r.name.s)
    && r.address.JStr? && r.dishes.JStr? && r.cuisine.JStr?
    && r.recommendation.JStr? && |r.recommendation.s| <= MaxRecommendation
    && LatitudeInRange(r.latitude) && LongitudeInRange(r.longitude)
    && r.updated.JStr?
  }

  /** Every record the dialog produces meets the rules. */
  lemma ValidatedIsAcceptable(f: FormInput, now: string, parse: string -> Option<real>)
    requires Validate(f, now, parse).Success?
    ensures Acceptable(Validate(f, now, parse).value)
  {
    StripIdempotent(f.name);
  }

  /** One submission of the dialog: the entries and the clock reading at
      the moment OK was pressed. */
  datatype Attempt = Attempt(input: FormInput, now: string)

  /** `i` is the first position holding a success, and it holds `v`. */
  predicate FirstSuccessAt<T(==), E(==)>(results: seq<Result<T, E>>, i: int, v: T)
  {
    && 0 <= i < |results|
    && results[i] == Success(v)
    && forall j :: 0 <= j < i ==> results[j].Failure?
  }

  /** The value of the first success in `results`, if there is one. */
  function FirstSuccess<T(==), E(==)>(results: seq<Result<T, E>>): (r: Option<T>)
    ensures r.None? <==> forall i :: 0 <= i < |results| ==> results[i].Failure?
    ensures r.Some? ==> exists i :: FirstSuccessAt(results, i, r.value)
  {
    if |results| == 0 then None
    else if results[0].Success? then
      assert FirstSuccessAt(results, 0, results[0].value);
      Some(results[0].value)
    else
      var r := FirstSuccess(results[1..]);
      if r.Some? then
        var i :| FirstSuccessAt(results[1..], i, r.value);
        assert FirstSuccessAt(results, i + 1, r.value);
        r
      else
        r
  }

  /** A whole dialog session. A rejected submission keeps the dialog open,
      so the first accepted one closes it and `apply` sets the result; if
      none is accepted the user cancelled and the result stays unset. */
  function RunDialog(attempts: seq<Attempt>, parse: string -> Option<real>): (r: Option<Record>)
    ensures r.None? <==> forall i :: 0 <= i < |attempts| ==> Outcomes(attempts, parse)[i].Failure?
    ensures r.Some? ==> exists i :: FirstSuccessAt(Outcomes(attempts, parse), i, r.value)
  {
    FirstSuccess(Outcomes(attempts, parse))
  }

  /** The verdict of each submission, in order. */
  function Outcomes(attempts: seq<Attempt>, parse: string -> Option<real>): (rs: seq<Result<Record, ValidationError>>)
    ensures |rs| == |attempts|
    ensures forall i :: 0 <= i < |attempts| ==> rs[i] == Validate(attempts[i].input, attempts[i].now, parse)
  {
    seq(|attempts|, i requires 0 <= i < |attempts| => Validate(attempts[i].input, attempts[i].now, parse))
  }

  /** A record that closes the dialog meets the rules. */
  lemma DialogResultIsAcceptable(attempts: seq<Attempt>, parse: string -> Option<real>)
    ensures RunDialog(attempts, parse).Some? ==> Acceptable(RunDialog(attempts, parse).value)
  {
    var r := RunDialog(attempts, parse);
    if r.Some? {
      var i :| FirstSuccessAt(Outcomes(attempts, parse), i, r.value);
      ValidatedIsAcceptable(attempts[i].input, attempts[i].now, parse);
    }
  }
}

=== FILE: wrappers.dfy ===
/** Failure-carrying datatypes shared by the model. */
module Wrappers {

  /** A value that may be missing: what a parse or a lookup returns. */
  datatype Option<+T> = None | Some(value: T)

  /** Either a computed value or the reason it could not be computed. */
  datatype Result<+T, +E> = Success(value: T) | Failure(error: E)
}
